=== FILE: README.md ===
# sonos playlist browser — a Dafny model

`sonos.py` is a command-line tool for Sonos speakers. It can save each zone's
playlists and queue as JSON snapshots in a directory, and it has a terminal UI
(`ui`) for browsing those snapshots. This project models the browser at the
heart of that UI, `BrowserControl`, and the pure pieces around it. They are
written as Dafny functions over immutable data, and their promises are proved.

- **Navigator** (`navigator.dfy`). The browser state has five parts:
  - the root directory;
  - the path stack;
  - the parallel stack of saved cursor rows;
  - the rows on screen;
  - the cursor row.

  Every key handler is a function from the old state to the new one:
  `down`, `up`, `c-f`, `c-b`, `c-a`, `c-z`, `space` (descend) and `left`
  (ascend). All cursor changes go through `AdjustCursor`, the clamp routine
  `adjust_cursor_position`. `Step` dispatches one key and `Run` replays a
  whole session.
- **Listing** (`listing.dfy`). This is `fetch_list` over an abstract
  filesystem: a map from path to `Dir(entries)` or `Leaf(tracks)`.
  - A directory lists its names in descending order.
  - A snapshot lists one `creator : album : title` row per track.
  - A missing path gives `None`, the `FileNotFoundError` case that returns
    `False`.
- **Sorting** (`sorting.dfy`). Python's `sorted` and `reversed` on names,
  using code-point order.
- **Render** (`render.dfy`). This is `text`: numbered lines joined by
  newlines, with the cursor row wrapped in `ESC[7m` … `ESC[0m`.
- **StatusBar** (`statusbar.dfy`). This is `status_bar_text`.
  - A saved queue `queue.<zone>.<YYYYMMDDHHMMSS>.json` is shown as
    `<zone> : YYYY/MM/DD HH:MM`.
  - Other names are shown unchanged, or as their base name.
  - The key help follows the label.

  The file-name formats of `dump_queue` and `dump_playlists` are modelled as
  partners that the label lemmas start from.
- **TrackId** (`trackid.dfy`). This is the DIDL item id built in
  `enqueue_playlist`: the URI path without its last extension, behind the
  prefix `08675309`.
- **Strings** (`strings.dfy`). The Python string operations the above rely
  on: `join`, one-character `split`, `endswith`, clamped slicing,
  `os.path.basename`, `str(n)` and `rjust`.
- **Wrappers** (`wrappers.dfy`). An `Option` type.

The model follows the code as written in these places:

- **Cursor stack length.** The cursor stack starts as `[0]`, so it always has
  the same length as the path stack, not one less (`Navigator.Inv`).
- **Descend path.** `space` joins the selected name onto the ROOT, not onto
  the current location, so only names directly under the root can be
  entered. A name selected inside a snapshot therefore usually fails to
  fetch and leaves the state unchanged. The program's own TODO list notes the
  one-level assumption.
- **Out-of-range targets.** A cursor target at or past the end of the list is
  ignored by the clamp routine; the old cursor is kept and then clamped. So
  `c-f` near the bottom of the list leaves the cursor where it is rather than
  moving to the last row. An out-of-range saved row on `left` likewise keeps
  the old cursor, clamped to the parent's list.
- **Ascend ignores failure.** `left` ignores whether the parent could be
  re-listed. If it could not, the stacks are popped but the old rows stay on
  screen.
- **Dotted playlist titles.** A playlist title with exactly one dot gives a
  file name of four dotted parts. The status bar then shows it as if it were
  a queue (`StatusBar.DottedTitleLooksLikeQueue`).
- **Dotted zone names.** Zone names are free text. A queue saved for a zone
  with a dot in its name has five dotted parts and is shown by its base
  name, not its zone and time (`StatusBar.DottedZoneQueueLabel`). A playlist
  of such a zone with a dot-free title has four parts and is shown as if it
  were a queue, with the part after the zone's dot as the zone: its file
  name is the one `StatusBar.DottedTitleLooksLikeQueue` starts from.
- **Dots in directory names.** The item id strips from the last dot of the
  whole path, even when that dot is in a directory name and the file has no
  extension (`TrackId.DotInDirectory`).

## Model

| member | source | states |
|---|---|---|
| `Navigator.Init` | sonos.py:140-149 | A fresh browser has one-entry stacks `[root]` and `[0]`, cursor 0, and the root's listing on screen. If the root cannot be fetched it has no rows. The invariant holds. |
| `Navigator.AdjustCursor` | sonos.py:177-184 | For non-negative inputs the result is 0 on an empty list and inside `[0, n)` otherwise. A target below `n` is taken exactly. A target at or past `n` keeps an in-range cursor, and clamps an out-of-range one to `n-1`. |
| `Navigator.MoveDown` | sonos.py:189-194 | Moves the cursor down by exactly one unless it is on the last row, where nothing changes. Preserves the invariant. |
| `Navigator.MoveUp` | sonos.py:196-200 | Moves the cursor up by exactly one unless it is on row 0, where nothing changes. Preserves the invariant. |
| `Navigator.PageDownTarget` | sonos.py:215 | The target is the larger of the last visible line and one past the top of the window. |
| `Navigator.PageDown` | sonos.py:210-217 | Only the cursor can change, and nothing changes before the window has render info. A target below the length becomes the cursor. A target at or past the length leaves a cursor that is in range where it is, so the state is unchanged. Preserves the invariant. |
| `Navigator.PageUp` | sonos.py:219-225 | Only the cursor can change, and nothing changes without render info. With a window height of at least one, the cursor becomes `max(0, cursor - height + 1)`, so it never grows. Preserves the invariant. |
| `Navigator.JumpTop` | sonos.py:227-229 | Only the cursor changes, and it becomes 0. |
| `Navigator.JumpBottom` | sonos.py:231-238 | Only the cursor changes: to the last row, or to 0 on an empty list. Nothing changes without render info. |
| `Navigator.Descend` | sonos.py:240-248 | If the selected name joined onto the root cannot be fetched, the state is exactly unchanged. Otherwise both stacks are pushed (the path, and the old cursor row), the cursor is 0, and the rows are the new location's listing. Preserves the invariant. |
| `Navigator.Ascend` | sonos.py:202-208 | At the root nothing changes. Otherwise the result re-enters the parent with its fresh listing, and when the parent exists the rows on screen are its listing. Preserves the invariant. |
| `Navigator.Reenter` | sonos.py:204-208 | Both stacks lose their top. The rows become the parent's listing, or stay as they were when none came back. An in-range saved row is restored exactly. A saved row past the end of the rows keeps the old cursor when that is on a row, and otherwise puts it on the last row (0 for an empty list). Preserves the invariant. |
| `Navigator.AscendWithoutParent` | sonos.py:204-208 | When the parent is gone, `left` still pops both stacks, keeps the old rows, and keeps the cursor in range. |
| `Navigator.Step` | sonos.py:151-248 | On any tree, a keystroke fails exactly when the program raises an `IndexError`. That is `space` on an empty list (the `IndexError` of `the_list[y]`), or `space` or `left` that opens an empty snapshot (the `IndexError` of `playlist[0]`). Every other keystroke yields a state that satisfies the invariant and keeps the root. |
| `Navigator.Run` | sonos.py:151-248 | For sessions in which no keystroke raises, any sequence of keystrokes, over trees that may change between them and may hold empty snapshots, keeps the invariant and the root. A session whose first keystroke raises yields no state, and a session without `space` or `left` always yields one. |
| `Navigator.ReachableStatesAreGood` | sonos.py:140-248 | From a fresh browser whose root can be opened, every state reachable by a session in which no keystroke raises has the cursor on a row (or 0), two stacks of equal non-zero length, and the root at the bottom of the path stack. |
| `Navigator.RunStopsAtRaise` | sonos.py:186-248 | However the session goes on, it yields no state once a keystroke raises in the state the keystrokes before it reached. |
| `Navigator.RunConcat` | sonos.py:186-248 | A session split in two runs as its first part, then its second from where the first ended. |
| `Navigator.DescendTargetName` | sonos.py:242 | `space` aims at the selected name joined onto the root: for a slash-free name the target starts with the root and has the name as its base name. |
| `Navigator.DescendTargetIgnoresLocation` | sonos.py:242 | The same selected row leads to the same place from any location, since only the root is joined. |
| `Navigator.DescendThenAscend` | sonos.py:202-248 | On an unchanged tree, a successful descend followed by an ascend restores the path stack, cursor stack, rows and cursor row exactly. |
| `Navigator.ReenterUndoesPush` | sonos.py:243-248 | Re-entering with the listing that was on screen undoes one push of a path and a cursor row. |
| `Navigator.BottomTopBottom` | sonos.py:227-238 | Bottom, then top, then bottom again leaves the cursor on the last row. |
| `Listing.Fetch` | sonos.py:151-164 | A location yields rows exactly when it exists; a missing one yields nothing, so the caller keeps its list. |
| `Listing.FetchRows` | sonos.py:153-160 | A directory lists its entries in descending order, each entry exactly as often as it occurs. A snapshot lists one `creator : album : title` row per track, in file order. |
| `Listing.DirListingUnique` | sonos.py:153-154 | Any descending arrangement of a directory's entries is the listing. The listing does not depend on the order the OS gives. |
| `Listing.PathJoin` | sonos.py:242 | `os.path.join` returns an absolute second part unchanged. Otherwise it is the first part, then one slash exactly when the first part is non-empty and does not end in one, then the second part. |
| `Listing.BasenameOfPathJoin` | sonos.py:242 | A slash-free name joined onto any directory is the base name of the joined path. |
| `Sorting.SortAscending` | sonos.py:154 | `sorted` returns an ascending permutation of its input. |
| `Sorting.Insert` | sonos.py:154 | Inserting into an ascending list keeps it ascending and adds exactly that one name. |
| `Sorting.Reverse` | sonos.py:154 | `reversed` puts element `i` at position `n-1-i` and keeps every element. |
| `Sorting.SortDescending` | sonos.py:154 | `reversed(sorted(...))` is a descending permutation of its input. |
| `Sorting.DescendingUnique` | sonos.py:154 | Two descending permutations of the same names are equal. |
| `Sorting.BelowTotal` | sonos.py:154 | Python's string order is total. |
| `Sorting.BelowTransitive` | sonos.py:154 | Python's string order is transitive. |
| `Sorting.BelowAntisymmetric` | sonos.py:154 | Python's string order is antisymmetric. |
| `Render.Text` | sonos.py:166-175 | The screen text is empty exactly when there are no rows. |
| `Render.TextReadsBack` | sonos.py:166-175 | Assume rows without newlines or escapes, at most 999 of them. Splitting the text at newlines then gives one line per row. Each line starts with a space, its number column and a space. Its number column reads back as its one-based row number, and its shown item reads back as the row. Only the cursor row carries an escape. |
| `Render.LineReadsBack` | sonos.py:167-172 | For a row below 999 whose item holds no newline or escape, the line starts with a space, the number column and a space. It reads back as its number and item, has no newline, and is marked exactly when it is the cursor row. |
| `Render.BodyReadsBack` | sonos.py:168-172 | For an item without an escape character, the reverse-video wrapping appears exactly on the cursor row, and unwrapping gives back the item. |
| `Render.NumberReadsBack` | sonos.py:172 | `{idx:>3}` of `idx+1` reads back as `idx+1`, for every row, also past 999 where the column widens. |
| `Render.NumberWidth` | sonos.py:172 | Below 1000 the number column is exactly three characters of spaces and digits. |
| `StatusBar.LabelCases` | sonos.py:288-296 | A name not ending in `.json` is shown as it is. A `.json` name whose base name does not hold exactly three dots is shown as its base name, the `ValueError` case. |
| `StatusBar.JsonStemLabel` | sonos.py:290-296 | A file `stem.json` with a dot-free stem, in any directory, is shown as its base name. |
| `StatusBar.PlaylistLabel` | sonos.py:73 | For a zone name without dots or slashes, a playlist file whose title holds no dot, or two or more, is shown as its base name. |
| `Strings.SplitCount` | sonos.py:292 | `split` gives one piece more than the string has separators. |
| `StatusBar.OtherNamesUnchanged` | sonos.py:290 | A name not ending in `.json` is shown unchanged before the key help. |
| `StatusBar.StampIgnoresSeconds` | sonos.py:293-294 | The time label is `YYYY/MM/DD HH:MM` over the first twelve characters; the seconds are dropped. |
| `StatusBar.QueueLabel` | sonos.py:288-298 | For a zone name and timestamp without dots or slashes, any location whose base name is a saved queue's is shown as `<zone> : <time>` followed by the key help. |
| `StatusBar.SavedQueueLabel` | sonos.py:86 | For a zone name and timestamp without dots or slashes, the file `dump_queue` writes is labelled with the zone and time it was saved under. |
| `StatusBar.SavedPlaylistLabel` | sonos.py:73 | For a zone name without dots or slashes, the file `dump_playlists` writes for a dot-free title is labelled with its base name, since unpacking three parts raises `ValueError`. |
| `StatusBar.DottedZoneQueueLabel` | sonos.py:86 | A queue saved for a zone whose name holds one dot splits into five parts and is shown as its base name, not as zone and time. |
| `StatusBar.DottedTitleLooksLikeQueue` | sonos.py:73 | A playlist title with one dot is shown as if its halves were a zone and a time. |
| `StatusBar.FourPartLabel` | sonos.py:292-294 | A `.json` base name of four dotted parts is shown as its second and third parts, as zone and time. |
| `StatusBar.ThreePartLabel` | sonos.py:295-296 | A `.json` base name of three dotted parts is shown as the base name. |
| `StatusBar.DescendIntoQueue` | sonos.py:240-248 | Selecting a saved queue in the root directory makes the status line show its zone and time. |
| `TrackId.BeforeLastDot` | sonos.py:47 | `rsplit('.', 1)[0]` is a prefix of the path. If the path has a dot, the prefix ends just before a dot with no dot after it; otherwise it is the whole path. |
| `TrackId.StripExtension` | sonos.py:47 | Removing a dot-free extension gives back the stem, whatever dots the stem holds. |
| `TrackId.ItemIdOfFile` | sonos.py:47-49 | A file's item id is `08675309` followed by its path without the extension. |
| `TrackId.ItemId` | sonos.py:47-49 | The item id is `08675309` followed by the path cut before its last dot; a path without a dot is kept whole. |
| `TrackId.DotInDirectory` | sonos.py:47 | For any directory `dir.sub` and dot-free file name, the item id cuts at the directory's dot: a dot in a directory is taken as the extension's dot when the file has none. |
| `Strings.Split` | sonos.py:292 | `split` yields at least one piece, no piece holds the separator, and joining the pieces gives back the string. |
| `Strings.SplitJoin` | sonos.py:292 | Splitting a join of separator-free parts gives back the parts. |
| `Strings.Basename` | sonos.py:292 | The base name is the longest slash-free suffix of the path. |
| `Strings.Decimal` | sonos.py:172 | `str(n)` is a non-empty string of digits without a leading zero, at most three long below 1000. |
| `Strings.DecimalRoundTrip` | sonos.py:172 | Reading `str(n)` back gives `n`. |
| `Strings.RJust` | sonos.py:172 | `rjust` pads on the left with spaces to the width and never truncates. |
| `Strings.Slice` | sonos.py:293 | `s[i:j]` clamps both bounds to the length. |

## Left out

- Speaker control through the `soco` library: discovery, `silence`, queueing,
  and the playlist and queue dumps. These are device and network I/O through
  a library that is not part of this model. Only the file-name formats of the
  dumps are modelled.
- `playlist.py`. It holds only `soco` calls and file writes.
- The real filesystem and JSON parsing: `os.path.isdir`, `os.listdir`, `open`
  and `json.loads`. They are replaced by the abstract tree. Malformed JSON is
  outside the model.
- An empty snapshot file makes `playlist[0]` raise an uncaught
  `IndexError`. `Navigator.Step` reports that as a failed keystroke, and
  `Listing.Fetch`, `Navigator.Init`, `Navigator.Descend` and
  `Navigator.Ascend` require the location they open not to be one (`Listing.Openable`).
- The `prompt_toolkit` UI: dialogs, the picker, the float stack, focus, layout
  and the global `q`/`h`/`?` bindings. The window's render info is an input;
  its absence is `None`.
- The `e` (enqueue) key handler. It mixes path joining with device discovery
  and dialogs.
- `urlparse` in the track-id derivation. The model starts from the extracted
  path.
- Argument parsing and the `__main__` dispatch.
- The `vertical_scroll` assignments of `c-f` and `c-z`. They move the window,
  not the browser state.
- `Navigator.Step`: a path absent from the tree stands only for the
  `FileNotFoundError` that `fetch_list` catches, which leaves the state
  unchanged. The other errors `open` can raise are not modelled: a path that
  runs through a file (`NotADirectoryError`), a name that is too long, or
  missing permissions. The model keeps the state on them, while the program
  raises from the key handler.
- `Navigator.Run`: the model ends a session at the first keystroke that
  raises. The program's UI reports the exception and carries on with the
  handler's partial effect: `space` has already pushed the path but not the
  cursor row, and `left` onto an empty parent has popped the path but not
  the row, so the two stacks fall out of step. The invariant is therefore
  proved only for sessions in which no keystroke raises.
- `Navigator.PageUp`: the exact cursor formula is stated only for a window
  height of at least one. With a window of height 0 the target is one row
  below the cursor, so the cursor moves down one row when there is one and
  otherwise stays. The contract for that case says only that the cursor
  stays on a row; a drawn window is never that small.
- `Render.LineReadsBack`: stated for rows below 999 whose item holds no
  newline or escape, for the same reasons as `Render.TextReadsBack`.
- `Render.BodyReadsBack`: stated for items without an escape character; an
  item that carries its own reverse-video codes cannot be told apart from
  the cursor row.
- `Render.TextReadsBack`: stated for at most 999 rows without newlines or
  escapes. Past 999 the number column grows beyond three characters, and an
  item's own newlines or escapes make the text ambiguous.
- Unicode: strings are sequences of code points, and Python's `str` order is
  code-point order, which the model uses as is.

=== FILE: listing.dfy ===
/** What the browser can show at a location (`BrowserControl.fetch_list`).
    The filesystem is an abstract tree: a map from path to either a
    directory with its entry names or a saved playlist/queue snapshot
    holding its tracks. */
module Listing {
  import opened Wrappers
  import opened Strings
  import Sorting

  /** One record of a snapshot file, as far as the listing reads it. */
  datatype Track = Track(creator: string, album: string, title: string)

  /** A directory lists its entries in `os.listdir` order, which is arbitrary. */
  datatype Node = Dir(entries: seq<string>) | Leaf(tracks: seq<Track>)

  type Tree = map<string, Node>

  /** Fetching `path` does not raise: the listing logs `playlist[0]`, so an
      empty snapshot would raise `IndexError`, which nothing catches. */
  predicate Openable(t: Tree, path: string) {
    path in t && t[path].Leaf? ==> |t[path].tracks| > 0
  }

  /** `os.path.join(a, b)` for two components (POSIX rules): an absolute `b`
      replaces `a`, and a slash is inserted unless `a` is empty or ends in one. */
  function PathJoin(a: string, b: string): (r: string)
    ensures |b| > 0 && b[0] == '/' ==> r == b
    ensures !(|b| > 0 && b[0] == '/') ==>
              && |a| + |b| <= |r| <= |a| + |b| + 1
              && r[..|a|] == a
              && r[|r| - |b|..] == b
              && (|r| == |a| + |b| + 1 <==> |a| > 0 && a[|a| - 1] != '/')
              && (|r| == |a| + |b| + 1 ==> r[|a|] == '/')
  {
    if |b| > 0 && b[0] == '/' then b
    else if |a| == 0 || a[|a| - 1] == '/' then a + b
    else a + "/" + b
  }

  /** A slash-free name joined onto any directory is the base name of the result,
      so the status bar shows the entry the user selected. */
  lemma BasenameOfPathJoin(a: string, name: string)
    requires '/' !in name
    ensures Basename(PathJoin(a, name)) == name
  {
    if |a| == 0 {
      BasenameOfPlain(name);
    } else if a[|a| - 1] == '/' {
      assert a + name == a[..|a| - 1] + "/" + name;
      BasenameOfJoin(a[..|a| - 1], name);
    } else {
      BasenameOfJoin(a, name);
    }
  }

  /** The row shown for one track: `"{} : {} : {}".format(creator, album, title)`. */
  function TrackRow(t: Track): string {
    t.creator + " : " + t.album + " : " + t.title
  }

  /** One row per track, in file order. */
  function LeafRows(tracks: seq<Track>): (r: seq<string>)
    ensures |r| == |tracks|
    ensures forall i | 0 <= i < |tracks| :: r[i] == TrackRow(tracks[i])
  {
    seq(|tracks|, i requires 0 <= i < |tracks| => TrackRow(tracks[i]))
  }

  /** The new row list for `path`, or `None` where the program gets
      `FileNotFoundError` and returns `False` (the caller keeps its old list). */
  function Fetch(t: Tree, path: string): (r: Option<seq<string>>)
    requires Openable(t, path)
    ensures r.None? <==> path !in t
  {
    if path !in t then None
    else match t[path]
      case Dir(entries) => Some(Sorting.SortDescending(entries))
      case Leaf(tracks) => Some(LeafRows(tracks))
  }

  /** A directory lists its entries in descending order (so timestamped names
      come newest first), each as often as it occurs; a snapshot lists one row
      per track, in order. */
  lemma FetchRows(t: Tree, path: string)
    requires path in t && Openable(t, path)
    ensures t[path].Dir? ==>
              && Sorting.Descending(Fetch(t, path).value)
              && multiset(Fetch(t, path).value) == multiset(t[path].entries)
    ensures t[path].Leaf? ==>
              var rows := Fetch(t, path).value;
              && |rows| == |t[path].tracks|
              && forall i | 0 <= i < |rows| :: rows[i] == TrackRow(t[path].tracks[i])
  {
  }

  /** The directory listing is fully determined: it is the one descending
      arrangement of the directory's entries, whatever order the OS gave them in. */
  lemma DirListingUnique(t: Tree, path: string, names: seq<string>)
    requires path in t && t[path].Dir?
    requires Sorting.Descending(names)
    requires multiset(names) == multiset(t[path].entries)
    ensures Fetch(t, path) == Some(names)
  {
    FetchRows(t, path);
    Sorting.DescendingUnique(Fetch(t, path).value, names);
  }
}

=== FILE: navigator.dfy ===
/** The list navigator (`BrowserControl`): a path stack, a parallel stack of
    saved cursor rows, the rows on screen and the cursor row, driven by the
    key handlers of `build_key_bindings`. Every handler is a pure function
    from the old state to the new one; the tree it reads is passed in, so
    it may differ from one keystroke to the next. */
module Navigator {
  import opened Wrappers
  import opened Listing
  import opened Strings

  /** `root_path`, `path_stack`, `cursor_stack`, `the_list` and `cursor_position.y`. */
  datatype State = State(
    root: string,
    pathStack: seq<string>,
    cursorStack: seq<nat>,
    rows: seq<string>,
    cursor: int)

  /** What a page move reads from the window's render info. */
  datatype View = View(lastVisibleLine: nat, verticalScroll: nat, windowHeight: nat)

  /** The handled keys. A paging key carries the window's render info, which is
      `None` before the window is first drawn; the handler then does nothing. */
  datatype Key =
    | KeyDown
    | KeyUp
    | KeyLeft
    | KeyCtrlF(view: Option<View>)
    | KeyCtrlB(view: Option<View>)
    | KeyCtrlA
    | KeyCtrlZ(view: Option<View>)
    | KeySpace

  /** The cursor names a row, or is 0 when there are no rows. */
  predicate CursorFits(cursor: int, n: nat) {
    if n == 0 then cursor == 0 else 0 <= cursor < n
  }

  /** What holds of every state the browser reaches: the two stacks have the
      same length (the cursor stack starts as `[0]`, not empty), the bottom
      of the path stack is the root, and the cursor fits the rows. Saved rows
      are never negative; the type of the cursor stack says so. */
  predicate Inv(s: State) {
    && |s.pathStack| >= 1
    && |s.cursorStack| == |s.pathStack|
    && s.pathStack[0] == s.root
    && CursorFits(s.cursor, |s.rows|)
  }

  /** The location on screen: `path_stack[-1]`. */
  function Current(s: State): string
    requires |s.pathStack| > 0
  {
    s.pathStack[|s.pathStack| - 1]
  }

  /** The rows on screen are what the tree lists for the current location. */
  predicate InSync(t: Tree, s: State) {
    && |s.pathStack| > 0
    && Openable(t, Current(s))
    && Fetch(t, Current(s)) == Some(s.rows)
  }

  /** `BrowserControl.__init__`: one-entry stacks, cursor at row 0, and the
      root's listing, or no rows at all if the root cannot be fetched. */
  function Init(t: Tree, root: string): (s: State)
    requires Openable(t, root)
    ensures Inv(s)
    ensures s.pathStack == [root] && s.cursorStack == [0] && s.cursor == 0
    ensures root in t ==> InSync(t, s)
    ensures root !in t ==> s.rows == []
  {
    var s := State(root, [root], [0], [], 0);
    s.(rows := Fetch(t, root).GetOr([]))
  }

  /** `adjust_cursor_position(y=y)` on a list of `n` rows: take `y` if it is
      below `n`, then force the cursor into range. */
  function AdjustCursor(n: nat, cursor: int, y: int): (r: int)
    ensures 0 <= y && 0 <= cursor ==> CursorFits(r, n)
    ensures 0 < n && y < n ==> r == y
    ensures n <= y && CursorFits(cursor, n) ==> r == cursor
    ensures n <= y && n <= cursor ==> r == (if n == 0 then 0 else n - 1)
  {
    var c := if y < n then y else cursor;
    if n == 0 then 0
    else if c >= n then n - 1
    else c
  }

  /** The `down` key. */
  function MoveDown(s: State): (r: State)
    ensures 0 <= s.cursor && s.cursor + 1 < |s.rows| ==> r == s.(cursor := s.cursor + 1)
    ensures s.cursor + 1 >= |s.rows| ==> r == s
    ensures Inv(s) ==> Inv(r)
  {
    var y := s.cursor + 1;
    if y < |s.rows| then s.(cursor := AdjustCursor(|s.rows|, s.cursor, y)) else s
  }

  /** The `up` key. */
  function MoveUp(s: State): (r: State)
    ensures 0 < s.cursor <= |s.rows| ==> r == s.(cursor := s.cursor - 1)
    ensures s.cursor <= 0 ==> r == s
    ensures Inv(s) ==> Inv(r)
  {
    var y := s.cursor - 1;
    if y >= 0 then s.(cursor := AdjustCursor(|s.rows|, s.cursor, y)) else s
  }

  /** The row a page-down aims at: the last visible line, but at least one
      past the top of the window. */
  function PageDownTarget(v: View): (y: nat)
    ensures y >= v.lastVisibleLine && y > v.verticalScroll
    ensures y == v.lastVisibleLine || y == v.verticalScroll + 1
  {
    if v.lastVisibleLine >= v.verticalScroll + 1 then v.lastVisibleLine else v.verticalScroll + 1
  }

  /** The `c-f` key. A target past the last row leaves the cursor where it is. */
  function PageDown(s: State, view: Option<View>): (r: State)
    ensures r == s.(cursor := r.cursor)
    ensures view.None? ==> r == s
    ensures view.Some? && PageDownTarget(view.value) < |s.rows| ==> r.cursor == PageDownTarget(view.value)
    ensures view.Some? && PageDownTarget(view.value) >= |s.rows| && CursorFits(s.cursor, |s.rows|) ==> r == s
    ensures Inv(s) ==> Inv(r)
  {
    match view
    case None => s
    case Some(v) => s.(cursor := AdjustCursor(|s.rows|, s.cursor, PageDownTarget(v)))
  }

  /** The `c-b` key: back by one window height less one row, stopping at row 0. */
  function PageUp(s: State, view: Option<View>): (r: State)
    ensures r == s.(cursor := r.cursor)
    ensures view.None? ==> r == s
    ensures Inv(s) && view.Some? && view.value.windowHeight >= 1 ==>
              && r.cursor <= s.cursor
              && r.cursor == (if s.cursor - view.value.windowHeight + 1 > 0
                              then s.cursor - view.value.windowHeight + 1 else 0)
    ensures Inv(s) ==> Inv(r)
  {
    match view
    case None => s
    case Some(v) =>
      var y := if s.cursor - v.windowHeight + 1 > 0 then s.cursor - v.windowHeight + 1 else 0;
      s.(cursor := AdjustCursor(|s.rows|, s.cursor, y))
  }

  /** The `c-a` key. */
  function JumpTop(s: State): (r: State)
    ensures r == s.(cursor := r.cursor)
    ensures r.cursor == 0
    ensures Inv(s) ==> Inv(r)
  {
    s.(cursor := AdjustCursor(|s.rows|, s.cursor, 0))
  }

  /** The `c-z` key: the last row, or row 0 of an empty list. */
  function JumpBottom(s: State, view: Option<View>): (r: State)
    ensures r == s.(cursor := r.cursor)
    ensures view.None? ==> r == s
    ensures view.Some? && |s.rows| > 0 ==> r.cursor == |s.rows| - 1
    ensures view.Some? && |s.rows| == 0 ==> r.cursor == 0
    ensures Inv(s) ==> Inv(r)
  {
    match view
    case None => s
    case Some(_) => s.(cursor := AdjustCursor(|s.rows|, s.cursor, |s.rows| - 1))
  }

  /** Where the `space` key goes: the selected row joined onto the ROOT, not
      onto the current location, so only one level below the root is reachable. */
  function DescendTarget(s: State): string
    requires 0 <= s.cursor < |s.rows|
  {
    PathJoin(s.root, s.rows[s.cursor])
  }

  /** A slash-free row leads to a path under the root whose base name is the row. */
  lemma DescendTargetName(s: State)
    requires 0 <= s.cursor < |s.rows|
    requires '/' !in s.rows[s.cursor]
    ensures Basename(DescendTarget(s)) == s.rows[s.cursor]
    ensures |DescendTarget(s)| >= |s.root| && DescendTarget(s)[..|s.root|] == s.root
  {
    var row := s.rows[s.cursor];
    assert |row| == 0 || row[0] != '/';
    BasenameOfPathJoin(s.root, row);
  }

  /** The target does not depend on where the browser is: from any location
      the same row leads to the same place. */
  lemma DescendTargetIgnoresLocation(s: State, pathStack: seq<string>, cursorStack: seq<nat>)
    requires 0 <= s.cursor < |s.rows|
    ensures DescendTarget(s.(pathStack := pathStack, cursorStack := cursorStack)) == DescendTarget(s)
  {
  }

  /** The `space` key. A listing that cannot be fetched undoes the tentative
      push and leaves everything as it was. */
  function Descend(t: Tree, s: State): (r: State)
    requires 0 <= s.cursor < |s.rows|
    requires Openable(t, DescendTarget(s))
    ensures DescendTarget(s) !in t ==> r == s
    ensures DescendTarget(s) in t ==>
              && r.root == s.root
              && r.pathStack == s.pathStack + [DescendTarget(s)]
              && r.cursorStack == s.cursorStack + [s.cursor]
              && r.cursor == 0
              && InSync(t, r)
    ensures Inv(s) ==> Inv(r)
  {
    var path := DescendTarget(s);
    match Fetch(t, path)
    case None => s
    case Some(rows) =>
      var r := s.(pathStack := s.pathStack + [path],
                  cursorStack := s.cursorStack + [s.cursor],
                  rows := rows,
                  cursor := AdjustCursor(|rows|, s.cursor, 0));
      assert Current(r) == path;
      r
  }

  /** `left` reads the parent's listing only when there is a parent. */
  predicate AscendDefined(t: Tree, s: State) {
    |s.pathStack| > 1 ==> |s.cursorStack| > 0 && Openable(t, s.pathStack[|s.pathStack| - 2])
  }

  /** The `left` key: pop both stacks, re-list the parent and restore the saved
      row. A failed re-listing is ignored and the old rows stay on screen. */
  function Ascend(t: Tree, s: State): (r: State)
    requires AscendDefined(t, s)
    ensures |s.pathStack| <= 1 ==> r == s
    ensures |s.pathStack| > 1 ==>
              var parent := s.pathStack[|s.pathStack| - 2];
              && r == Reenter(s, Fetch(t, parent))
              && (parent in t ==> InSync(t, r))
    ensures Inv(s) ==> Inv(r)
  {
    if |s.pathStack| > 1 then
      var parent := s.pathStack[|s.pathStack| - 2];
      var r := Reenter(s, Fetch(t, parent));
      assert Current(r) == parent;
      r
    else s
  }

  /** What `left` does to the state once the parent's listing is known:
      `None` keeps the rows on screen. */
  function Reenter(s: State, listing: Option<seq<string>>): (r: State)
    requires |s.pathStack| > 1 && |s.cursorStack| > 0
    ensures r.root == s.root
    ensures r.pathStack == s.pathStack[..|s.pathStack| - 1]
    ensures r.cursorStack == s.cursorStack[..|s.cursorStack| - 1]
    ensures r.rows == listing.GetOr(s.rows)
    ensures var saved := s.cursorStack[|s.cursorStack| - 1];
            0 <= saved < |r.rows| ==> r.cursor == saved
    ensures var saved := s.cursorStack[|s.cursorStack| - 1];
            saved >= |r.rows| && 0 <= s.cursor < |r.rows| ==> r.cursor == s.cursor
    ensures var saved := s.cursorStack[|s.cursorStack| - 1];
            saved >= |r.rows| && s.cursor >= |r.rows| ==>
              r.cursor == (if |r.rows| == 0 then 0 else |r.rows| - 1)
    ensures Inv(s) ==> Inv(r)
  {
    var rows := listing.GetOr(s.rows);
    s.(pathStack := s.pathStack[..|s.pathStack| - 1],
       cursorStack := s.cursorStack[..|s.cursorStack| - 1],
       rows := rows,
       cursor := AdjustCursor(|rows|, s.cursor, s.cursorStack[|s.cursorStack| - 1]))
  }

  /** Whether handling `key` raises: `space` on an empty list indexes past its
      end, and `space` or `left` that opens an empty snapshot reads `playlist[0]`
      of an empty list. Both are `IndexError`s the handler does not catch; the
      model ends the session there (see `Run`). */
  predicate Raises(t: Tree, s: State, key: Key) {
    match key
    case KeySpace =>
      || |s.rows| == 0
      || (0 <= s.cursor < |s.rows| && !Openable(t, DescendTarget(s)))
    case KeyLeft => |s.pathStack| > 1 && !Openable(t, s.pathStack[|s.pathStack| - 2])
    case _ => false
  }

  /** One keystroke, or `None` where the handler raises. */
  function Step(t: Tree, s: State, key: Key): (r: Option<State>)
    requires Inv(s)
    ensures r.None? <==> Raises(t, s, key)
    ensures r.Some? ==> Inv(r.value) && r.value.root == s.root
  {
    match key
    case KeyDown => Some(MoveDown(s))
    case KeyUp => Some(MoveUp(s))
    case KeyLeft =>
      if |s.pathStack| > 1 && !Openable(t, s.pathStack[|s.pathStack| - 2]) then None
      else Some(Ascend(t, s))
    case KeyCtrlF(view) => Some(PageDown(s, view))
    case KeyCtrlB(view) => Some(PageUp(s, view))
    case KeyCtrlA => Some(JumpTop(s))
    case KeyCtrlZ(view) => Some(JumpBottom(s, view))
    case KeySpace =>
      if |s.rows| == 0 || !Openable(t, DescendTarget(s)) then None
      else Some(Descend(t, s))
  }

  /** A keystroke together with the tree as it stands when the key is handled. */
  datatype Event = Event(tree: Tree, key: Key)

  /** A session: the keystrokes handled one after another. */
  function Run(s: State, events: seq<Event>): (r: Option<State>)
    requires Inv(s)
    ensures r.Some? ==> Inv(r.value) && r.value.root == s.root
    ensures |events| > 0 && Raises(events[0].tree, s, events[0].key) ==> r.None?
    ensures (forall i | 0 <= i < |events| :: !events[i].key.KeySpace? && !events[i].key.KeyLeft?) ==> r.Some?
    decreases |events|
  {
    if |events| == 0 then Some(s)
    else match Step(events[0].tree, s, events[0].key)
      case None => None
      case Some(next) => Run(next, events[1..])
  }

  /** A session split in two runs as its first part followed by its second. */
  lemma {:induction false} RunConcat(s: State, a: seq<Event>, b: seq<Event>)
    requires Inv(s)
    ensures Run(s, a + b) == (match Run(s, a) case None => None case Some(m) => Run(m, b))
    decreases |a|
  {
    if |a| == 0 {
      assert a + b == b;
    } else {
      assert (a + b)[0] == a[0];
      assert (a + b)[1..] == a[1..] + b;
      match Step(a[0].tree, s, a[0].key)
      case None =>
      case Some(next) => RunConcat(next, a[1..], b);
    }
  }

  /** A session yields no state as soon as one keystroke raises, whatever
      comes after it: a later failure is never hidden by an earlier success. */
  lemma RunStopsAtRaise(s: State, before: seq<Event>, e: Event, after: seq<Event>)
    requires Inv(s)
    requires Run(s, before).Some? && Raises(e.tree, Run(s, before).value, e.key)
    ensures Run(s, before + [e] + after) == None
  {
    RunConcat(s, before, [e] + after);
    assert before + [e] + after == before + ([e] + after);
  }

  /** Every state a session reaches from a fresh browser keeps the cursor on a
      row (or at 0) and the two stacks the same non-zero length. */
  lemma ReachableStatesAreGood(t0: Tree, root: string, events: seq<Event>)
    requires Openable(t0, root)
    ensures var r := Run(Init(t0, root), events);
            r.Some? ==>
              && CursorFits(r.value.cursor, |r.value.rows|)
              && |r.value.cursorStack| == |r.value.pathStack| >= 1
              && r.value.pathStack[0] == root
  {
  }

  /** Descending and then ascending, with the tree unchanged in between,
      restores the state exactly: stacks, rows and cursor row. */
  lemma DescendThenAscend(t: Tree, s: State)
    requires Inv(s) && InSync(t, s)
    requires 0 <= s.cursor < |s.rows|
    requires DescendTarget(s) in t && Openable(t, DescendTarget(s))
    ensures Ascend(t, Descend(t, s)) == s
  {
    var d := Descend(t, s);
    assert d.pathStack[..|s.pathStack|] == s.pathStack;
    AscendTo(t, d, s.rows);
    ReenterUndoesPush(s, d);
  }

  /** Ascending re-lists the parent location. */
  lemma AscendTo(t: Tree, d: State, listing: seq<string>)
    requires |d.pathStack| > 1 && |d.cursorStack| > 0
    requires Openable(t, d.pathStack[|d.pathStack| - 2])
    requires Fetch(t, d.pathStack[|d.pathStack| - 2]) == Some(listing)
    ensures Ascend(t, d) == Reenter(d, Some(listing))
  {
  }

  /** Re-entering with the listing that was on screen undoes a push of one
      location and the cursor row. */
  lemma ReenterUndoesPush(s: State, d: State)
    requires Inv(s)
    requires |d.pathStack| == |s.pathStack| + 1 && d.pathStack[..|s.pathStack|] == s.pathStack
    requires d.cursorStack == s.cursorStack + [s.cursor]
    requires d.root == s.root
    ensures Reenter(d, Some(s.rows)) == s
  {
    assert d.cursorStack[..|d.cursorStack| - 1] == s.cursorStack;
  }

  /** When the parent can no longer be listed, `left` still pops both stacks
      but keeps the rows on screen, and the cursor stays in range. */
  lemma AscendWithoutParent(t: Tree, s: State)
    requires Inv(s) && AscendDefined(t, s)
    requires |s.pathStack| > 1 && s.pathStack[|s.pathStack| - 2] !in t
    ensures var r := Ascend(t, s);
            && r.pathStack == s.pathStack[..|s.pathStack| - 1]
            && r.cursorStack == s.cursorStack[..|s.cursorStack| - 1]
            && r.rows == s.rows
            && CursorFits(r.cursor, |r.rows|)
  {
  }

  /** Bottom, then top, then bottom again leaves the cursor on the last row. */
  lemma BottomTopBottom(s: State, v: View)
    requires |s.rows| > 0
    ensures JumpBottom(JumpTop(JumpBottom(s, Some(v))), Some(v)).cursor == |s.rows| - 1
  {
  }
}

=== FILE: render.dfy ===
/** The browser's screen text (`BrowserControl.text`): one numbered line per
    row, the cursor row shown in reverse video, lines joined by newlines. */
module Render {
  import opened Wrappers
  import opened Strings

  /** The escape sequences around the cursor row: reverse video on, attributes off. */
  const ReverseOn: string := "\U{1B}[7m"
  const ReverseOff: string := "\U{1B}[0m"
  const Esc: char := '\U{1B}'

  /** The row number `idx + 1` right-aligned in three columns (`{idx:>3}`). */
  function Number(idx: nat): string {
    RJust(Decimal(idx + 1), 3)
  }

  /** The line for row `idx`: `" {idx:>3} {ansi0}{item}{ansi1}"`. The number
      column sits between two spaces, and the row follows it, in reverse
      video exactly on the cursor row. */
  function Line(item: string, idx: nat, cursor: int): (r: string)
    ensures |r| == |Number(idx)| + 2 + |Body(item, idx, cursor)|
    ensures r[0] == ' ' && r[|Number(idx)| + 1] == ' '
    ensures r[1..|Number(idx)| + 1] == Number(idx)
    ensures r[|Number(idx)| + 2..] == (if idx == cursor then ReverseOn + item + ReverseOff else item)
  {
    " " + Number(idx) + " " + Body(item, idx, cursor)
  }

  /** The item, wrapped in reverse video on the cursor row. */
  function Body(item: string, idx: nat, cursor: int): string {
    if idx == cursor then ReverseOn + item + ReverseOff else item
  }

  /** The lines of the whole list, in row order. */
  function Lines(rows: seq<string>, cursor: int): (r: seq<string>)
    ensures |r| == |rows|
    ensures forall k | 0 <= k < |rows| :: r[k] == Line(rows[k], k, cursor)
  {
    seq(|rows|, k requires 0 <= k < |rows| => Line(rows[k], k, cursor))
  }

  /** The screen text. Nothing at all is shown for an empty list. */
  function Text(rows: seq<string>, cursor: int): (r: string)
    ensures r == "" <==> rows == []
  {
    var lines := Lines(rows, cursor);
    JoinAtLeastFirst(lines, "\n");
    Join(lines, "\n")
  }

  /** A join is never shorter than its first part. */
  lemma JoinAtLeastFirst(parts: seq<string>, sep: string)
    ensures |parts| > 0 ==> |Join(parts, sep)| >= |parts[0]|
  {
  }

  /** `s` without its leading spaces. */
  function TrimLeft(s: string): (r: string)
    ensures |r| <= |s| && r == s[|s| - |r|..]
    ensures |r| > 0 ==> r[0] != ' '
    decreases |s|
  {
    if |s| > 0 && s[0] == ' ' then TrimLeft(s[1..]) else s
  }

  /** The number written in a right-aligned number column, if it holds one. */
  function ReadNumber(field: string): Option<nat> {
    var d := TrimLeft(field);
    if |d| > 0 && forall k | 0 <= k < |d| :: IsDigit(d[k]) then Some(DigitsValue(d)) else None
  }

  /** What a line shows of its row: everything after the number column, with
      the reverse-video wrapping taken off. */
  function ItemOf(line: string): string {
    Unwrap(if |line| >= 5 then line[5..] else "")
  }

  /** `body` without the reverse-video wrapping, if it has one. */
  function Unwrap(body: string): string {
    if |body| >= 8 && body[..4] == ReverseOn && body[|body| - 4..] == ReverseOff
    then body[4..|body| - 4]
    else body
  }

  /** Whether a line carries an escape character, as only the cursor row does. */
  predicate Marked(line: string) {
    Esc in line
  }

  /** Up to row 999 the number column is exactly three characters wide and
      made of spaces and digits. */
  lemma NumberWidth(idx: nat)
    requires idx < 999
    ensures |Number(idx)| == 3
    ensures forall k | 0 <= k < 3 :: Number(idx)[k] == ' ' || IsDigit(Number(idx)[k])
  {
  }

  /** The number column reads back as the row's one-based number, however
      many digits that number has. */
  lemma {:induction false} NumberReadsBack(idx: nat)
    ensures ReadNumber(Number(idx)) == Some(idx + 1)
  {
    var d := Decimal(idx + 1);
    var n := Number(idx);
    var pad := n[..|n| - |d|];
    assert n == pad + d;
    TrimPadding(pad, d);
    DecimalRoundTrip(idx + 1);
  }

  /** Stripping a run of spaces in front of a word that does not start with a space. */
  lemma {:induction false} TrimPadding(pad: string, d: string)
    requires forall k | 0 <= k < |pad| :: pad[k] == ' '
    requires |d| > 0 && d[0] != ' '
    ensures TrimLeft(pad + d) == d
    decreases |pad|
  {
    if |pad| > 0 {
      assert (pad + d)[1..] == pad[1..] + d;
      TrimPadding(pad[1..], d);
    } else {
      assert pad + d == d;
    }
  }

  /** The shown part of a row without escapes unwraps to the row, carries
      an escape exactly on the cursor row, and adds no newline. */
  lemma BodyReadsBack(item: string, idx: nat, cursor: int)
    requires Esc !in item
    ensures Unwrap(Body(item, idx, cursor)) == item
    ensures Esc in Body(item, idx, cursor) <==> idx == cursor
    ensures '\n' in Body(item, idx, cursor) <==> '\n' in item
  {
    var body := Body(item, idx, cursor);
    if idx == cursor {
      assert '\n' !in ReverseOn && '\n' !in ReverseOff by {
        forall k | 0 <= k < 4 ensures ReverseOn[k] != '\n' && ReverseOff[k] != '\n' { }
      }
      assert body[..4] == ReverseOn && body[|body| - 4..] == ReverseOff;
      assert body[4..|body| - 4] == item;
      assert body[0] == Esc;
    } else {
      assert |body| < 8 || body[0] != ReverseOn[0];
    }
  }

  /** A line is a space, the number column, a space and the shown part of the row. */
  lemma LineParts(item: string, idx: nat, cursor: int)
    requires idx < 999
    ensures var line := Line(item, idx, cursor);
            && |line| >= 5
            && line[..5] == " " + Number(idx) + " "
            && line[1..4] == Number(idx)
            && line[5..] == Body(item, idx, cursor)
  {
    NumberWidth(idx);
    ColumnsOf(Number(idx), Body(item, idx, cursor));
  }

  /** Where the pieces of `" {number} {body}"` sit when the number is three wide. */
  lemma ColumnsOf(number: string, body: string)
    requires |number| == 3
    ensures var line := " " + number + " " + body;
            && |line| == 5 + |body|
            && line[..5] == " " + number + " "
            && line[1..4] == number
            && line[5..] == body
  {
  }

  /** The number column holds neither newlines nor escapes. */
  lemma NumberIsPlain(idx: nat)
    requires idx < 999
    ensures '\n' !in Number(idx) && Esc !in Number(idx)
  {
    NumberWidth(idx);
    var n := Number(idx);
    forall k | 0 <= k < 3 ensures n[k] != '\n' && n[k] != Esc { }
  }

  /** A character that is not a space occurs in a line only in its number or its shown part. */
  lemma NotInLine(ch: char, number: string, body: string)
    requires ch != ' ' && ch !in number && ch !in body
    ensures ch !in " " + number + " " + body
  {
  }

  /** A line of an item with no newline or escape in it: the number column
      reads back as `idx + 1`, the item reads back unchanged, and the line is
      marked exactly when it is the cursor row. */
  lemma LineReadsBack(item: string, idx: nat, cursor: int)
    requires idx < 999
    requires '\n' !in item && Esc !in item
    ensures var line := Line(item, idx, cursor);
            && '\n' !in line
            && |line| >= 5
            && line[..5] == " " + Number(idx) + " "
            && ReadNumber(line[1..4]) == Some(idx + 1)
            && ItemOf(line) == item
            && (Marked(line) <==> idx == cursor)
  {
    NumberReadsBack(idx);
    LineParts(item, idx, cursor);
    BodyReadsBack(item, idx, cursor);
    NumberIsPlain(idx);
    var body := Body(item, idx, cursor);
    NotInLine('\n', Number(idx), body);
    if idx == cursor {
      assert Line(item, idx, cursor)[5..][0] == Esc;
    } else {
      NotInLine(Esc, Number(idx), body);
    }
  }

  /** Splitting the screen text at newlines gives back one line per row, each
      showing its row and number, with only the cursor row marked. Rows are
      assumed free of newlines and escapes, and at most 999 of them, so that
      the number column keeps its width. */
  lemma TextReadsBack(rows: seq<string>, cursor: int)
    requires 0 < |rows| <= 999
    requires forall k | 0 <= k < |rows| :: '\n' !in rows[k] && Esc !in rows[k]
    ensures var lines := Split(Text(rows, cursor), '\n');
            && |lines| == |rows|
            && forall k | 0 <= k < |rows| ::
                 && ItemOf(lines[k]) == rows[k]
                 && |lines[k]| >= 5
                 && lines[k][..5] == " " + Number(k) + " "
                 && ReadNumber(lines[k][1..4]) == Some(k + 1)
                 && (Marked(lines[k]) <==> k == cursor)
  {
    var lines := Lines(rows, cursor);
    forall k | 0 <= k < |rows|
      ensures '\n' !in lines[k]
      ensures |lines[k]| >= 5
      ensures lines[k][..5] == " " + Number(k) + " "
      ensures ReadNumber(lines[k][1..4]) == Some(k + 1)
      ensures ItemOf(lines[k]) == rows[k]
      ensures Marked(lines[k]) <==> k == cursor
    {
      LineReadsBack(rows[k], k, cursor);
    }
    SplitJoin(lines, '\n');
  }
}

=== FILE: sorting.dfy ===
/** Python's `sorted` and `reversed` on lists of names, with the order
    Python uses on `str`: lexicographic by code point. */
module Sorting {

  /** Python's `a <= b` on strings. */
  predicate Below(a: string, b: string)
    decreases |a|
  {
    |a| == 0 || (|b| > 0 && (a[0] < b[0] || (a[0] == b[0] && Below(a[1..], b[1..]))))
  }

  lemma {:induction false} BelowTotal(a: string, b: string)
    ensures Below(a, b) || Below(b, a)
    decreases |a|
  {
    if |a| > 0 && |b| > 0 && a[0] == b[0] {
      BelowTotal(a[1..], b[1..]);
    }
  }

  lemma {:induction false} BelowAntisymmetric(a: string, b: string)
    requires Below(a, b) && Below(b, a)
    ensures a == b
    decreases |a|
  {
    if |a| > 0 {
      BelowAntisymmetric(a[1..], b[1..]);
      assert a == [a[0]] + a[1..] && b == [b[0]] + b[1..];
    }
  }

  lemma {:induction false} BelowTransitive(a: string, b: string, c: string)
    requires Below(a, b) && Below(b, c)
    ensures Below(a, c)
    decreases |a|
  {
    if |a| > 0 && a[0] == b[0] && b[0] == c[0] {
      BelowTransitive(a[1..], b[1..], c[1..]);
    }
  }

  /** Each name is at most the next one. */
  predicate Ascending(s: seq<string>) {
    forall i, j | 0 <= i < |s| && 0 <= j < |s| && j == i + 1 :: Below(s[i], s[j])
  }

  /** Each name is at least the next one. */
  predicate Descending(s: seq<string>) {
    forall i, j | 0 <= i < |s| && 0 <= j < |s| && j == i + 1 :: Below(s[j], s[i])
  }

  /** Inserts `x` into an ascending list at its place. */
  function Insert(x: string, s: seq<string>): (r: seq<string>)
    requires Ascending(s)
    ensures Ascending(r)
    ensures multiset(r) == multiset(s) + multiset{x}
    ensures |r| == |s| + 1
    ensures r[0] == x || (|s| > 0 && r[0] == s[0])
    decreases |s|
  {
    if |s| == 0 then [x]
    else if Below(x, s[0]) then [x] + s
    else
      var rest := Insert(x, s[1..]);
      BelowTotal(x, s[0]);
      assert s == [s[0]] + s[1..];
      [s[0]] + rest
  }

  /** `sorted(s)`: an ascending permutation of `s`. */
  function SortAscending(s: seq<string>): (r: seq<string>)
    ensures Ascending(r)
    ensures multiset(r) == multiset(s)
    decreases |s|
  {
    if |s| == 0 then []
    else
      assert s == [s[0]] + s[1..];
      Insert(s[0], SortAscending(s[1..]))
  }

  /** `list(reversed(s))`. */
  function Reverse(s: seq<string>): (r: seq<string>)
    ensures |r| == |s|
    ensures forall i | 0 <= i < |s| :: r[i] == s[|s| - 1 - i]
    ensures multiset(r) == multiset(s)
  {
    var r := seq(|s|, i requires 0 <= i < |s| => s[|s| - 1 - i]);
    ReverseKeepsNames(s);
    r
  }

  /** Reversal only rearranges the names. */
  lemma {:induction false} ReverseKeepsNames(s: seq<string>)
    ensures multiset(seq(|s|, i requires 0 <= i < |s| => s[|s| - 1 - i])) == multiset(s)
    decreases |s|
  {
    if |s| > 0 {
      var tail := s[1..];
      ReverseKeepsNames(tail);
      var r := seq(|s|, i requires 0 <= i < |s| => s[|s| - 1 - i]);
      var rt := seq(|tail|, i requires 0 <= i < |tail| => tail[|tail| - 1 - i]);
      assert r == rt + [s[0]];
      assert s == [s[0]] + tail;
    }
  }

  /** `list(reversed(sorted(s)))`: a descending permutation of `s`. */
  function SortDescending(s: seq<string>): (r: seq<string>)
    ensures Descending(r)
    ensures multiset(r) == multiset(s)
  {
    var a := SortAscending(s);
    ReverseAscending(a);
    Reverse(a)
  }

  /** Reversing an ascending list gives a descending one. */
  lemma ReverseAscending(a: seq<string>)
    requires Ascending(a)
    ensures Descending(Reverse(a))
  {
    var r := Reverse(a);
    forall i, j | 0 <= i < |r| && 0 <= j < |r| && j == i + 1
      ensures Below(r[j], r[i])
    {
      var k := |a| - 2 - i;
      assert r[j] == a[k] && r[i] == a[k + 1];
    }
  }

  /** In a descending list the first name is at least every other one. */
  lemma {:induction false} DescendingFirstAbove(s: seq<string>, k: nat)
    requires Descending(s)
    requires k < |s|
    ensures Below(s[k], s[0])
    decreases k
  {
    if k == 0 {
      BelowTotal(s[0], s[0]);
    } else {
      DescendingFirstAbove(s, k - 1);
      BelowTransitive(s[k], s[k - 1], s[0]);
    }
  }

  /** Two descending permutations of one collection start with the same name. */
  lemma DescendingSameFirst(a: seq<string>, b: seq<string>)
    requires Descending(a) && Descending(b)
    requires multiset(a) == multiset(b)
    requires |a| > 0
    ensures |b| > 0 && a[0] == b[0]
  {
    assert a[0] in multiset(b) && b[0] in multiset(a);
    var j :| 0 <= j < |b| && b[j] == a[0];
    var i :| 0 <= i < |a| && a[i] == b[0];
    DescendingFirstAbove(a, i);
    DescendingFirstAbove(b, j);
    BelowAntisymmetric(a[0], b[0]);
  }

  lemma MultisetTail(a: seq<string>)
    requires |a| > 0
    ensures multiset(a[1..]) == multiset(a) - multiset{a[0]}
  {
    assert a == [a[0]] + a[1..];
  }

  /** There is only one descending arrangement of a collection of names:
      any descending permutation of `s` is `SortDescending(s)`. */
  lemma {:induction false} DescendingUnique(a: seq<string>, b: seq<string>)
    requires Descending(a) && Descending(b)
    requires multiset(a) == multiset(b)
    ensures a == b
    decreases |a|
  {
    if |a| == 0 {
      assert |multiset(b)| == 0;
    } else {
      DescendingSameFirst(a, b);
      MultisetTail(a);
      MultisetTail(b);
      DescendingUnique(a[1..], b[1..]);
      assert a == [a[0]] + a[1..] && b == [b[0]] + b[1..];
    }
  }
}

=== FILE: statusbar.dfy ===
/** The status line under the browser (`status_bar_text` in `make_app`): the
    current location, shown as zone and time when it is a saved queue, then
    the key help. */
module StatusBar {
  import opened Strings
  import Listing
  import Navigator

  /** The key help after the label. */
  const Help: string := " : 'q': quit | <up>/<down> moves | <space> selects | 'e' enqueues"

  /** `"{}/{}/{} {}:{}"` over `ts[0:4]`, `ts[4:6]`, `ts[6:8]`, `ts[8:10]`,
      `ts[10:12]`: the seconds `ts[12:14]` are passed to `format` but have no
      placeholder. */
  function Stamp(ts: string): string {
    Slice(ts, 0, 4) + "/" + Slice(ts, 4, 6) + "/" + Slice(ts, 6, 8) + " "
      + Slice(ts, 8, 10) + ":" + Slice(ts, 10, 12)
  }

  /** The label for a location. A `.json` name whose base name splits at dots
      into exactly four parts shows the middle two as zone and time; any other
      `.json` name (the unpacking raises `ValueError`) shows its base name;
      anything else shows as it is. */
  function Label(name: string): string {
    if !EndsWith(name, ".json") then name
    else
      var parts := Split(Basename(name), '.');
      if |parts| == 4 then parts[1] + " : " + Stamp(parts[2]) else Basename(name)
  }

  /** Names not ending in `.json` are shown as they are; a `.json` name whose
      base name does not hold exactly three dots is shown as its base name. */
  lemma LabelCases(name: string)
    ensures !EndsWith(name, ".json") ==> Label(name) == name
    ensures EndsWith(name, ".json") && Count(Basename(name), '.') != 3 ==> Label(name) == Basename(name)
  {
    SplitCount(Basename(name), '.');
  }

  /** The whole status line for a location. */
  function StatusText(name: string): (r: string)
    ensures |r| == |Label(name)| + |Help|
    ensures r[..|Label(name)|] == Label(name) && EndsWith(r, Help)
  {
    Label(name) + Help
  }

  /** The status line for a browser state: its current location's label. */
  function StatusLine(s: Navigator.State): string
    requires |s.pathStack| > 0
  {
    StatusText(Navigator.Current(s))
  }

  /** Where `dump_queue` saves a zone's queue: `"{}/queue.{}.{}.json"`. */
  function QueueFileName(dir: string, zone: string, timestamp: string): string {
    dir + "/" + QueueBaseName(zone, timestamp)
  }

  function QueueBaseName(zone: string, timestamp: string): string {
    "queue." + zone + "." + timestamp + ".json"
  }

  /** Where `dump_playlists` saves a playlist: `"{}/{}.{}.json"`. */
  function PlaylistFileName(dir: string, zone: string, title: string): string {
    dir + "/" + PlaylistBaseName(zone, title)
  }

  function PlaylistBaseName(zone: string, title: string): string {
    zone + "." + title + ".json"
  }

  /** Names without dots or slashes, as the parts of a snapshot file name. */
  predicate Plain(w: string) {
    '.' !in w && '/' !in w
  }

  /** Names that do not end in `.json` are shown unchanged. */
  lemma OtherNamesUnchanged(name: string)
    requires !EndsWith(name, ".json")
    ensures StatusText(name) == name + Help
  {
  }

  /** The time label drops the seconds: only the first twelve characters of
      the timestamp matter. */
  lemma StampIgnoresSeconds(ts: string)
    requires |ts| >= 12
    ensures Stamp(ts) == Stamp(ts[..12])
    ensures Stamp(ts) == ts[0..4] + "/" + ts[4..6] + "/" + ts[6..8] + " " + ts[8..10] + ":" + ts[10..12]
  {
    var t := ts[..12];
    assert Slice(ts, 0, 4) == Slice(t, 0, 4) == ts[0..4];
    assert Slice(ts, 4, 6) == Slice(t, 4, 6) == ts[4..6];
    assert Slice(ts, 6, 8) == Slice(t, 6, 8) == ts[6..8];
    assert Slice(ts, 8, 10) == Slice(t, 8, 10) == ts[8..10];
    assert Slice(ts, 10, 12) == Slice(t, 10, 12) == ts[10..12];
  }

  /** Dotted names split back into their parts. */
  lemma {:induction false} SplitFileName(a: string, b: string, c: string, d: string)
    requires '.' !in a && '.' !in b && '.' !in c && '.' !in d
    ensures Split(a + "." + b + "." + c + "." + d, '.') == [a, b, c, d]
  {
    var parts := [a, b, c, d];
    assert Join(parts[3..], ".") == d;
    assert Join(parts[2..], ".") == c + "." + d;
    assert Join(parts[1..], ".") == b + "." + c + "." + d;
    assert Join(parts, ".") == a + "." + b + "." + c + "." + d;
    SplitJoin(parts, '.');
  }

  /** Three dotted names split back into their parts. */
  lemma {:induction false} SplitShortFileName(a: string, b: string, c: string)
    requires '.' !in a && '.' !in b && '.' !in c
    ensures Split(a + "." + b + "." + c, '.') == [a, b, c]
  {
    var parts := [a, b, c];
    assert Join(parts[2..], ".") == c;
    assert Join(parts[1..], ".") == b + "." + c;
    assert Join(parts, ".") == a + "." + b + "." + c;
    SplitJoin(parts, '.');
  }

  /** A location whose base name ends in `.json` ends in `.json` itself. */
  lemma JsonBase(path: string, stem: string)
    requires Basename(path) == stem + ".json"
    ensures EndsWith(path, ".json")
  {
    var base := Basename(path);
    assert base[|base| - 5..] == ".json";
    assert path[|path| - 5..] == base[|base| - 5..];
  }

  /** The parts of a four-part `.json` name. */
  lemma SplitJson4(a: string, b: string, c: string)
    requires '.' !in a && '.' !in b && '.' !in c
    ensures Split(a + "." + b + "." + c + ".json", '.') == [a, b, c, "json"]
  {
    assert a + "." + b + "." + c + ".json" == a + "." + b + "." + c + "." + "json";
    SplitFileName(a, b, c, "json");
  }

  /** The parts of a three-part `.json` name. */
  lemma SplitJson3(a: string, b: string)
    requires '.' !in a && '.' !in b
    ensures Split(a + "." + b + ".json", '.') == [a, b, "json"]
  {
    assert a + "." + b + ".json" == a + "." + b + "." + "json";
    SplitShortFileName(a, b, "json");
  }

  /** A `.json` base name of four dotted parts shows its middle two as zone and time. */
  lemma FourPartLabel(path: string, a: string, b: string, c: string)
    requires '.' !in a && '.' !in b && '.' !in c
    requires Basename(path) == a + "." + b + "." + c + ".json"
    ensures StatusText(path) == b + " : " + Stamp(c) + Help
  {
    JsonBase(path, a + "." + b + "." + c);
    SplitJson4(a, b, c);
  }

  /** A `.json` base name of three dotted parts shows as itself. */
  lemma ThreePartLabel(path: string, a: string, b: string)
    requires '.' !in a && '.' !in b
    requires Basename(path) == a + "." + b + ".json"
    ensures StatusText(path) == Basename(path) + Help
  {
    JsonBase(path, a + "." + b);
    SplitJson3(a, b);
  }

  /** Any location whose base name is a saved queue's shows the zone and the
      time the queue was saved. */
  lemma QueueLabel(path: string, zone: string, timestamp: string)
    requires Plain(zone) && Plain(timestamp)
    requires Basename(path) == QueueBaseName(zone, timestamp)
    ensures StatusText(path) == zone + " : " + Stamp(timestamp) + Help
  {
    FourPartLabel(path, "queue", zone, timestamp);
  }

  /** A queue saved by `dump_queue` is labelled with its zone and time. */
  lemma SavedQueueLabel(dir: string, zone: string, timestamp: string)
    requires Plain(zone) && Plain(timestamp)
    ensures StatusText(QueueFileName(dir, zone, timestamp)) == zone + " : " + Stamp(timestamp) + Help
  {
    BasenameOfJoin(dir, QueueBaseName(zone, timestamp));
    QueueLabel(QueueFileName(dir, zone, timestamp), zone, timestamp);
  }

  /** A playlist saved by `dump_playlists` under a title without dots is
      labelled with its file's base name. */
  lemma SavedPlaylistLabel(dir: string, zone: string, title: string)
    requires Plain(zone) && Plain(title)
    ensures StatusText(PlaylistFileName(dir, zone, title)) == PlaylistBaseName(zone, title) + Help
  {
    var path := PlaylistFileName(dir, zone, title);
    BasenameOfJoin(dir, PlaylistBaseName(zone, title));
    ThreePartLabel(path, zone, title);
  }

  /** A `.json` name adds one dot to its stem. */
  lemma JsonDots(stem: string)
    ensures Count(stem + ".json", '.') == Count(stem, '.') + 1
  {
    CountConcat(stem, ".json", '.');
    assert ".json" == "." + "json";
    CountConcat(".", "json", '.');
  }

  /** A file `stem.json` without further dots, anywhere, is labelled with its
      base name: it splits into two parts, not four. */
  lemma JsonStemLabel(dir: string, stem: string)
    requires Plain(stem)
    ensures StatusText(dir + "/" + stem + ".json") == stem + ".json" + Help
  {
    var path := dir + "/" + stem + ".json";
    assert path == dir + "/" + (stem + ".json");
    JsonNameHasNoSlash(stem);
    BasenameOfJoin(dir, stem + ".json");
    JsonDots(stem);
    BaseNameLabel(path, stem);
  }

  /** Adding `.json` adds no slash. */
  lemma JsonNameHasNoSlash(stem: string)
    requires '/' !in stem
    ensures '/' !in stem + ".json"
  {
    assert '/' !in ".json" by {
      forall k | 0 <= k < 5 ensures ".json"[k] != '/' { }
    }
  }

  /** A playlist whose title holds no dot, or two or more, is labelled with
      its file's base name; only a title with exactly one dot is mistaken for
      a saved queue (`DottedTitleLooksLikeQueue`). */
  lemma PlaylistLabel(dir: string, zone: string, title: string)
    requires Plain(zone) && '/' !in title
    requires Count(title, '.') != 1
    ensures StatusText(PlaylistFileName(dir, zone, title)) == PlaylistBaseName(zone, title) + Help
  {
    var base := PlaylistBaseName(zone, title);
    assert base == (zone + "." + title) + ".json";
    PlaylistBaseNameHasNoSlash(zone, title);
    BasenameOfJoin(dir, base);
    PlaylistDots(zone, title);
    BaseNameLabel(PlaylistFileName(dir, zone, title), zone + "." + title);
  }

  /** A `.json` base name that does not hold exactly three dots is shown as itself. */
  lemma BaseNameLabel(path: string, stem: string)
    requires Basename(path) == stem + ".json"
    requires Count(stem + ".json", '.') != 3
    ensures StatusText(path) == Basename(path) + Help
  {
    JsonBase(path, stem);
    LabelCases(path);
  }

  /** A playlist file name has a slash only where its zone or title has one. */
  lemma PlaylistBaseNameHasNoSlash(zone: string, title: string)
    requires '/' !in zone && '/' !in title
    ensures '/' !in PlaylistBaseName(zone, title)
  {
    assert '/' !in zone + "." + title;
    JsonNameHasNoSlash(zone + "." + title);
  }

  /** A playlist file name has two dots more than its title. */
  lemma PlaylistDots(zone: string, title: string)
    requires '.' !in zone
    ensures Count(PlaylistBaseName(zone, title), '.') == Count(title, '.') + 2
  {
    assert PlaylistBaseName(zone, title) == (zone + "." + title) + ".json";
    JsonDots(zone + "." + title);
    CountConcat(zone + ".", title, '.');
    CountConcat(zone, ".", '.');
  }

  /** A queue file name has three dots more than its zone name. */
  lemma QueueDots(zone: string, timestamp: string)
    requires '.' !in timestamp
    ensures Count(QueueBaseName(zone, timestamp), '.') == Count(zone, '.') + 3
  {
    var p1 := "queue." + zone;
    var p2 := p1 + ".";
    var p3 := p2 + timestamp;
    assert QueueBaseName(zone, timestamp) == p3 + ".json";
    QueuePrefixDots();
    CountConcat("queue.", zone, '.');
    CountConcat(p1, ".", '.');
    CountConcat(p2, timestamp, '.');
    JsonDots(p3);
  }

  /** The `queue.` prefix holds one dot. */
  lemma QueuePrefixDots()
    ensures Count("queue.", '.') == 1
  {
    assert "queue." == "queue" + ".";
    CountConcat("queue", ".", '.');
  }

  /** A queue saved for a zone whose name holds a dot splits into five parts,
      so it is labelled with its base name rather than its zone and time. */
  lemma DottedZoneQueueLabel(dir: string, left: string, right: string, timestamp: string)
    requires Plain(left) && Plain(right) && Plain(timestamp)
    ensures StatusText(QueueFileName(dir, left + "." + right, timestamp))
              == QueueBaseName(left + "." + right, timestamp) + Help
  {
    var zone := left + "." + right;
    var base := QueueBaseName(zone, timestamp);
    assert '/' !in zone;
    QueueBaseNameHasNoSlash(zone, timestamp);
    BasenameOfJoin(dir, base);
    QueueDots(zone, timestamp);
    CountConcat(left + ".", right, '.');
    CountConcat(left, ".", '.');
    assert base == ("queue." + zone + "." + timestamp) + ".json";
    BaseNameLabel(QueueFileName(dir, zone, timestamp), "queue." + zone + "." + timestamp);
  }

  /** A playlist title with exactly one dot in it makes the playlist look like
      a saved queue: the label shows the title's halves as zone and time. */
  lemma DottedTitleLooksLikeQueue(dir: string, zone: string, left: string, right: string)
    requires Plain(zone) && Plain(left) && Plain(right)
    ensures StatusText(PlaylistFileName(dir, zone, left + "." + right)) == left + " : " + Stamp(right) + Help
  {
    var path := PlaylistFileName(dir, zone, left + "." + right);
    assert '/' !in left + "." + right;
    BasenameOfJoin(dir, PlaylistBaseName(zone, left + "." + right));
    assert PlaylistBaseName(zone, left + "." + right) == zone + "." + left + "." + right + ".json";
    FourPartLabel(path, zone, left, right);
  }

  /** Selecting a saved queue in the root directory shows its zone and time
      in the status line. */
  lemma DescendIntoQueue(t: Listing.Tree, s: Navigator.State, zone: string, timestamp: string)
    requires 0 <= s.cursor < |s.rows|
    requires Plain(zone) && Plain(timestamp)
    requires s.rows[s.cursor] == QueueBaseName(zone, timestamp)
    requires Navigator.DescendTarget(s) in t && Listing.Openable(t, Navigator.DescendTarget(s))
    ensures StatusLine(Navigator.Descend(t, s)) == zone + " : " + Stamp(timestamp) + Help
  {
    var target := Navigator.DescendTarget(s);
    var d := Navigator.Descend(t, s);
    assert d.pathStack == s.pathStack + [target];
    assert Navigator.Current(d) == target;
    QueueBaseNameHasNoSlash(zone, timestamp);
    Navigator.DescendTargetName(s);
    QueueLabel(target, zone, timestamp);
  }

  /** A queue file name has a slash only where its zone or timestamp has one. */
  lemma QueueBaseNameHasNoSlash(zone: string, timestamp: string)
    requires '/' !in zone && '/' !in timestamp
    ensures '/' !in QueueBaseName(zone, timestamp)
  {
    assert '/' !in "queue." by {
      forall k | 0 <= k < 6 ensures "queue."[k] != '/' { }
    }
    assert '/' !in ".json" by {
      forall k | 0 <= k < 5 ensures ".json"[k] != '/' { }
    }
  }
}

=== FILE: strings.dfy ===
/** The handful of Python string operations the browser relies on:
    `sep.join`, `str.split` on one character, `str.endswith`, clamped
    slicing, `os.path.basename`, and `"{:>3}".format(n)` on a natural number. */
module Strings {

  /** `sep.join(parts)`: an empty list joins to the empty string. */
  function Join(parts: seq<string>, sep: string): string
    decreases |parts|
  {
    if |parts| == 0 then ""
    else if |parts| == 1 then parts[0]
    else parts[0] + sep + Join(parts[1..], sep)
  }

  /** `s.split(c)`: the pieces between occurrences of `c`, never an empty list. */
  function Split(s: string, c: char): (r: seq<string>)
    ensures |r| >= 1
    ensures forall k | 0 <= k < |r| :: c !in r[k]
    ensures Join(r, [c]) == s
    decreases |s|
  {
    if |s| == 0 then [""]
    else
      var rest := Split(s[1..], c);
      if s[0] == c then
        assert s == [c] + s[1..];
        [""] + rest
      else
        var r := [[s[0]] + rest[0]] + rest[1..];
        assert r[1..] == rest[1..];
        assert s == [s[0]] + s[1..];
        r
  }

  /** `s.count(c)`: how often `c` occurs in `s`. */
  function Count(s: string, c: char): (n: nat)
    ensures n == 0 <==> c !in s
    ensures n <= |s|
    decreases |s|
  {
    if |s| == 0 then 0
    else
      assert s == [s[0]] + s[1..];
      (if s[0] == c then 1 else 0) + Count(s[1..], c)
  }

  /** Counting distributes over concatenation. */
  lemma {:induction false} CountConcat(a: string, b: string, c: char)
    ensures Count(a + b, c) == Count(a, c) + Count(b, c)
    decreases |a|
  {
    if |a| > 0 {
      assert (a + b)[1..] == a[1..] + b;
      CountConcat(a[1..], b, c);
    } else {
      assert a + b == b;
    }
  }

  /** `s.split(c)` has one piece more than `s` has occurrences of `c`. */
  lemma {:induction false} SplitCount(s: string, c: char)
    ensures |Split(s, c)| == Count(s, c) + 1
    decreases |s|
  {
    if |s| > 0 {
      SplitCount(s[1..], c);
    }
  }

  /** Splitting a word with no separator in it, followed by anything, keeps
      the word at the front of the first piece. */
  lemma {:induction false} SplitAfterWord(w: string, tail: string, c: char)
    requires c !in w
    ensures Split(w + tail, c) == [w + Split(tail, c)[0]] + Split(tail, c)[1..]
    decreases |w|
  {
    if |w| > 0 {
      var t := Split(tail, c);
      assert (w + tail)[1..] == w[1..] + tail;
      SplitAfterWord(w[1..], tail, c);
      var rest := Split(w[1..] + tail, c);
      assert rest == [w[1..] + t[0]] + t[1..];
      assert rest[1..] == t[1..];
      assert [w[0]] + rest[0] == w + t[0];
    } else {
      var rest := Split(tail, c);
      assert w + tail == tail;
      assert w + rest[0] == rest[0];
      assert [rest[0]] + rest[1..] == rest;
    }
  }

  /** Splitting undoes joining, as long as no part holds the separator. */
  lemma {:induction false} SplitJoin(parts: seq<string>, c: char)
    requires |parts| >= 1
    requires forall k | 0 <= k < |parts| :: c !in parts[k]
    ensures Split(Join(parts, [c]), c) == parts
    decreases |parts|
  {
    if |parts| == 1 {
      SplitAfterWord(parts[0], "", c);
      assert parts[0] + "" == parts[0];
      assert Split("", c) == [""];
    } else {
      var tail := [c] + Join(parts[1..], [c]);
      assert Join(parts, [c]) == parts[0] + tail;
      SplitAfterWord(parts[0], tail, c);
      assert tail[1..] == Join(parts[1..], [c]);
      SplitJoin(parts[1..], c);
      assert Split(tail, c) == [""] + parts[1..];
      assert Split(tail, c)[1..] == parts[1..];
      assert parts[0] + Split(tail, c)[0] == parts[0];
      assert parts == [parts[0]] + parts[1..];
    }
  }

  /** `s.endswith(suffix)`. */
  predicate EndsWith(s: string, suffix: string) {
    |suffix| <= |s| && s[|s| - |suffix|..] == suffix
  }

  /** `s[i:j]` for non-negative bounds: Python clamps both ends to the length. */
  function Slice(s: string, i: nat, j: nat): (r: string)
    requires i <= j
    ensures |r| == (if j <= |s| then j - i else if i <= |s| then |s| - i else 0)
    ensures forall k | 0 <= k < |r| :: r[k] == s[i + k]
  {
    var lo := if i <= |s| then i else |s|;
    var hi := if j <= |s| then j else |s|;
    s[lo..hi]
  }

  /** `os.path.basename(p)`: the longest suffix of `p` without a slash. */
  function Basename(p: string): (r: string)
    ensures '/' !in r
    ensures |r| <= |p| && p[|p| - |r|..] == r
    ensures |r| < |p| ==> p[|p| - |r| - 1] == '/'
    decreases |p|
  {
    if |p| == 0 then ""
    else if p[|p| - 1] == '/' then ""
    else
      var r := Basename(p[..|p| - 1]) + [p[|p| - 1]];
      assert p[..|p| - 1][|p| - 1 - (|r| - 1)..] + [p[|p| - 1]] == p[|p| - |r|..];
      r
  }

  /** The base name of a path ending in `/` followed by a slash-free name is that name. */
  lemma {:induction false} BasenameOfJoin(dir: string, name: string)
    requires '/' !in name
    ensures Basename(dir + "/" + name) == name
    decreases |name|
  {
    var p := dir + "/" + name;
    if |name| > 0 {
      var init := name[..|name| - 1];
      assert p[..|p| - 1] == dir + "/" + init;
      BasenameOfJoin(dir, init);
      assert init + [name[|name| - 1]] == name;
    } else {
      assert p[|p| - 1] == '/';
    }
  }

  /** A name without a slash is its own base name. */
  lemma {:induction false} BasenameOfPlain(name: string)
    requires '/' !in name
    ensures Basename(name) == name
    decreases |name|
  {
    if |name| > 0 {
      var init := name[..|name| - 1];
      BasenameOfPlain(init);
      assert init + [name[|name| - 1]] == name;
    }
  }

  predicate IsDigit(ch: char) {
    '0' <= ch <= '9'
  }

  function DigitChar(d: nat): (ch: char)
    requires d < 10
    ensures IsDigit(ch)
    ensures ch as int - '0' as int == d
  {
    (d + '0' as int) as char
  }

  /** The decimal numeral of `n`, as Python's `str(n)` writes it. */
  function Decimal(n: nat): (r: string)
    ensures 1 <= |r|
    ensures forall k | 0 <= k < |r| :: IsDigit(r[k])
    ensures r[0] == '0' ==> n == 0
    ensures n < 10 ==> |r| == 1
    ensures n < 100 ==> |r| <= 2
    ensures n < 1000 ==> |r| <= 3
    decreases n
  {
    if n < 10 then [DigitChar(n)]
    else Decimal(n / 10) + [DigitChar(n % 10)]
  }

  function DigitValue(ch: char): nat
    requires IsDigit(ch)
  {
    ch as int - '0' as int
  }

  /** The number a string of decimal digits denotes. */
  function DigitsValue(s: string): nat
    requires forall k | 0 <= k < |s| :: IsDigit(s[k])
    decreases |s|
  {
    if |s| == 0 then 0
    else DigitsValue(s[..|s| - 1]) * 10 + DigitValue(s[|s| - 1])
  }

  /** Reading a numeral back gives the number that was written. */
  lemma {:induction false} DecimalRoundTrip(n: nat)
    ensures DigitsValue(Decimal(n)) == n
    decreases n
  {
    if n >= 10 {
      DecimalRoundTrip(n / 10);
      var d := Decimal(n);
      assert d[..|d| - 1] == Decimal(n / 10);
    }
  }

  /** `"{:>w}".format(s)`: pads on the left with spaces up to width `w`, never truncates. */
  function RJust(s: string, w: nat): (r: string)
    ensures |r| == (if |s| >= w then |s| else w)
    ensures r[|r| - |s|..] == s
    ensures forall k | 0 <= k < |r| - |s| :: r[k] == ' '
  {
    if |s| >= w then s else seq(w - |s|, _ => ' ') + s
  }
}

=== FILE: trackid.dfy ===
/** The DIDL item id `enqueue_playlist` builds for a track from the path of
    its URI: the path with its last extension removed, behind a fixed
    eight-digit prefix. */
module TrackId {

  /** The prefix put in front of every item id. */
  const Prefix: string := "08675309"

  /** `p.rsplit('.', 1)[0]`: everything before the last dot, or all of `p`
      when it has no dot. The last dot may sit in a directory name. */
  function BeforeLastDot(p: string): (r: string)
    ensures |r| <= |p| && r == p[..|r|]
    ensures '.' in p ==> |r| < |p| && p[|r|] == '.' && '.' !in p[|r| + 1..]
    ensures '.' !in p ==> r == p
    decreases |p|
  {
    if '.' !in p then p
    else if p[|p| - 1] == '.' then p[..|p| - 1]
    else
      var init := p[..|p| - 1];
      assert p == init + [p[|p| - 1]];
      var r := BeforeLastDot(init);
      assert p[|r| + 1..] == init[|r| + 1..] + [p[|p| - 1]];
      r
  }

  /** `'08675309{0}'.format(path)` after the extension is stripped. */
  function ItemId(path: string): (r: string)
    ensures |r| == |Prefix| + |BeforeLastDot(path)|
    ensures r[..|Prefix|] == Prefix
    ensures '.' !in path ==> r == Prefix + path
  {
    Prefix + BeforeLastDot(path)
  }

  /** Removing an extension without dots gives back the stem, whatever dots
      the stem itself holds. */
  lemma StripExtension(stem: string, ext: string)
    requires '.' !in ext
    ensures BeforeLastDot(stem + "." + ext) == stem
  {
    var p := stem + "." + ext;
    assert p[|stem|] == '.';
    assert forall k | |stem| < k < |p| :: p[k] == ext[k - |stem| - 1];
  }

  /** A file's item id is the prefix followed by its path without the extension. */
  lemma ItemIdOfFile(stem: string, ext: string)
    requires '.' !in ext
    ensures ItemId(stem + "." + ext) == Prefix + stem
  {
    StripExtension(stem, ext);
  }

  /** A path whose file has no extension but whose directory has a dot loses
      everything from that dot on: `rsplit` does not stop at slashes. */
  lemma DotInDirectory(dir: string, sub: string, file: string)
    requires '.' !in sub && '.' !in file
    ensures ItemId(dir + "." + sub + "/" + file) == Prefix + dir
  {
    assert '.' !in sub + "/" + file;
    assert dir + "." + sub + "/" + file == dir + "." + (sub + "/" + file);
    StripExtension(dir, sub + "/" + file);
  }
}

=== FILE: wrappers.dfy ===
/** The optional value used wherever the program returns `False` or falls
    back to an old value instead of producing a new one. */
module Wrappers {

  datatype Option<+T> = None | Some(value: T) {

    /** The value carried by `Some`, or `default` for `None`. */
    function GetOr(default: T): (r: T)
      ensures Some? ==> r == value
      ensures None? ==> r == default
    {
      match this
      case Some(v) => v
      case None => default
    }
  }
}
